=== FILE: README.md ===
# crossref-rs query and date core, modelled in Dafny

This project models the three behavioural pieces of the `crossref` Rust client
for the Crossref REST API:

- **Date parts** (`src/response/work.rs`). The API encodes a date as nested
  arrays `[[year, month?, day?], ...]`. `DateParts::as_date` decodes them into
  a `DateField`: `Single` for one inner array, `Range{from, to}` for two, and
  `Multi` for three or more. It gives no date for an empty outer array or when
  any inner array fails to decode. Module `DateParts`, file `date_parts.dfy`.
- **Query rendering** (`src/query/mod.rs`). This covers:
  - key/value fragments (`key:value`) and parameters (`key=value`);
  - the aggregate `filter=` parameter;
  - the sort, order and pagination parameters;
  - resource routes (`/works`, `/<primary>/<id>/works`);
  - `&`-joined parameter routes and `to_url`.

  Module `Query`, file `query.dfy`.
- **Topic formatting** (`src/query/mod.rs`). `format_query` folds the
  whitespace runs of a topic into `+`. `format_queries` joins several
  formatted topics with `+`. Module `Topics`, file `topics.dfy`.
- **Work types** (`src/query/types.rs`). There are 28 work types. Each has an
  `id` and a `label`, and `from_str` parses an id back into its type. Module
  `WorkTypes`, file `types.dfy`.

Helper modules:

- `Wrappers` holds `Option` and `Result`. They work with `:-`, which plays the
  part of Rust's `?`.
- `Strings` holds `join`, `split` on a set of separator characters, cutting at
  the first occurrence of a character, and decimal rendering of naturals.

Every rendering trait (`ParamFragment`, `CrossrefQueryParam`) is modelled by
the pair it asks for: `KeyValue(key, value?)`. `Fragment` renders such a pair
with `:` and `Param` renders it with `=`. `Unrender` cuts a string at its first
separator. It reads a rendered pair back when the pair's key holds no
separator. The `RowsOffset` pagination key `rows=R` holds `=`, so that
parameter reads back differently (see `Query.ControlParamShape`). Most
rendering properties are stated as round trips through `Unrender` or through
`SplitOn`.

Behaviour of the code worth knowing:

- An empty filter list renders `filter=`. It is not left out.
- A parameter slice is joined in the order the caller gives. The parameters
  are not put into a canonical order.
- `to_url` is the base path followed by the route. The code adds no `?`.
- `RowsOffset` renders as the single string `rows=R=offset=O`.
- `Sort::IsReferencedByCount` renders as the literal `is-reference-by-count`.
  The model keeps that literal. Note that the `Work` record deserialises its
  count field under the kebab-case name `is-referenced-by-count`
  (src/response/work.rs:37-46).

## Model

| member | source | states |
|---|---|---|
| `DateParts.AsI32` | src/response/work.rs:68-70 | The `u32 as i32` cast of the year keeps values below 2^31. Larger values become negative years that are congruent to the input modulo 2^32. |
| `DateParts.Naive` | src/response/work.rs:65-73 | An inner array decodes exactly when it has 1 to 3 components and none of them is null. The year, month and day then come from positions 0, 1 and 2, with 0 for a month or day that is absent. |
| `DateParts.CollectDates` | src/response/work.rs:82-87 | Collecting into `Option<Vec<_>>` succeeds exactly when every inner array decodes. On success the list has the same length and order as the input, element by element. |
| `DateParts.AsDate` | src/response/work.rs:63-89 | There is a date exactly when the outer array is non-empty and every inner array decodes; this is all-or-nothing at every arity. One inner array gives `Single`, two give `Range` in the given order with no `from <= to` check, and three or more give `Multi`. The dates held are the inner decodings, in order. |
| `DateParts.AsDateAllOrNothing` | src/response/work.rs:77-86 | One undecodable inner array discards the whole value. A list of three or more is never shortened. |
| `DateParts.AsDateEncode` | src/response/work.rs:75-88 | Round trip: write a date field as one `[year, month, day]` array per date, then decode it, and you get the same field back. This holds for every field `as_date` can produce. |
| `DateParts.DecodingExamples` | src/response/work.rs:75-88 | Fixed examples: `[[2017,10,11]]` is a `Single`. `[[2021],[2020]]` is an unordered `Range`. `[[2019],[2020],[2021]]` is a `Multi`. `[[null]]`, `[]`, `[[2019],[null],[2021]]` and a four-component array give no date. |
| `DateParts.DateAsDateField` | src/response/work.rs:148-153 | `Date::as_date_field` gives the same result as decoding its date parts. |
| `DateParts.PartialDateAsDateField` | src/response/work.rs:165-170 | `PartialDate::as_date_field` gives the same result as decoding its date parts. |
| `Query.Fragment` | src/query/mod.rs:236-246 | `ParamFragment::fragment`. No contract of its own; `Query.FragmentRoundTrip` states what it renders. |
| `Query.Param` | src/query/mod.rs:248-258 | `CrossrefQueryParam::param`. No contract of its own; `Query.ParamRoundTrip` states what it renders. |
| `Query.FragmentRoundTrip` | src/query/mod.rs:236-246 | Read a fragment at its first `:`. A key without `:` comes back with the value if there is one, and with no value otherwise. |
| `Query.ParamRoundTrip` | src/query/mod.rs:248-258 | Read a parameter at its first `=`. A key without `=` comes back with the value if there is one, and with no value otherwise. |
| `Query.PairParam` | src/query/mod.rs:260-268 | The `(T, T)` parameter. No contract of its own; `Query.PairParamRendering` states its properties. |
| `Query.PairParamRendering` | src/query/mod.rs:260-268 | A `(key, value)` pair always renders with its value, as `key=value`. |
| `Query.OrderName` | src/query/mod.rs:53-60 | `Order::as_str`. No contract of its own; `Query.OrderParamRendering` states its properties. |
| `Query.OrderParam` | src/query/mod.rs:62-70 | The `order` parameter. No contract of its own; `Query.OrderParamRendering` states its properties. |
| `Query.OrderParamRendering` | src/query/mod.rs:53-70 | `Order` renders as `order=<asc or desc>`. The two directions render differently. |
| `Query.SortName` | src/query/mod.rs:97-112 | `Sort::as_str`. No contract of its own; `Query.SortNameInjective` and `Query.SortParamRendering` state its properties. |
| `Query.SortParam` | src/query/mod.rs:114-122 | The `sort` parameter. No contract of its own; `Query.SortParamRendering` states its properties. |
| `Query.SortParamRendering` | src/query/mod.rs:97-122 | `Sort` renders as `sort=<as_str>`. Different fields render differently. |
| `Query.SortNameInjective` | src/query/mod.rs:97-111 | The ten sort names, `is-reference-by-count` among them, are pairwise distinct. |
| `Query.ControlParam` | src/query/mod.rs:132-152 | The key and value of a `ResultControl`. No contract of its own; `Query.ControlParamShape` and `Query.ControlParamInjective` state its properties. |
| `Query.ControlParamShape` | src/query/mod.rs:132-152 | Read at its first `=`, pagination gives one of four shapes: `rows` with the row count, `offset` with the offset, or `sample` with no value. `RowsOffset` gives a `rows` key whose value is `R=offset=O`, so the whole string is `rows=R=offset=O`. |
| `Query.ControlParamInjective` | src/query/mod.rs:132-152 | Different pagination controls never render the same string. |
| `Query.PaginationExamples` | src/query/mod.rs:132-152 | `RowsOffset{20, 40}` renders `rows=20=offset=40`. `Sample` renders `sample`. |
| `Query.ComponentName` | src/query/mod.rs:172-183 | `Component::as_str`. No contract of its own; `Query.ComponentNameInjective` and `Query.ComponentNameAvoidsSlash` state its properties. |
| `Query.ComponentRoute` | src/query/mod.rs:185-189 | The route of a single component. No contract of its own; `Query.ResourceRouteShape` states its shape. |
| `Query.ComponentNameInjective` | src/query/mod.rs:172-183 | The six component names are pairwise distinct. |
| `Query.ComponentNameAvoidsSlash` | src/query/mod.rs:172-183 | No component name contains `/`, so a route's component part ends at the next `/`. |
| `Query.ResourceRoute` | src/query/mod.rs:185-217 | `ResourceComponent::route`. No contract of its own; `Query.ResourceRouteShape` and `Query.ResourceRouteInjective` state its properties. |
| `Query.ResourceRouteShape` | src/query/mod.rs:185-217 | A single component routes to `/<name>`. A combined one routes to `/<primary>/<identifier>/works`, with the identifier unescaped. Cutting after the leading `/` gives the parts back. |
| `Query.ResourceRouteInjective` | src/query/mod.rs:202-217 | Different resource selectors never share a route, whatever the identifier contains. |
| `Query.FunderWorksRouteExample` | src/query/mod.rs:202-217 | Funders with identifier `10.13039/100000001` routes to `/funders/10.13039/100000001/works`. |
| `Query.FilterParam` | src/query/mod.rs:221-234 | The filter-list parameter. No contract of its own; `Query.FilterParamRendering` states its properties. |
| `Query.FilterParamRendering` | src/query/mod.rs:221-234 | A filter list is one `filter` parameter whose value is always present. An empty list renders `filter=`. For a non-empty list in which no fragment contains `,`, splitting the value at `,` gives the fragments back in list order. |
| `Query.ParamsRoute` | src/query/mod.rs:274-283 | The slice route. No contract of its own; `Query.ParamsRouteRoundTrip` and `Query.ParamsRouteExample` state its properties. |
| `Query.ParamsRouteRoundTrip` | src/query/mod.rs:274-283 | For a non-empty list in which no parameter contains `&`, splitting a parameter route at `&` gives the rendered parameters back in the order given. |
| `Query.ParamsRouteExample` | src/query/mod.rs:274-283 | `[order desc, sort score]` routes to `order=desc&sort=score`. The caller's order is kept. |
| `Query.ToUrl` | src/query/mod.rs:285-290 | `to_url`. No contract of its own; `Query.ToUrlShape` and `Query.ToUrlInjective` state its properties. |
| `Query.ToUrlShape` | src/query/mod.rs:285-290 | A URL is the base path followed by exactly the route, with nothing in between. |
| `Query.ToUrlInjective` | src/query/mod.rs:285-290 | With one base path, different resources give different URLs. |
| `Topics.FormatQuery` | src/query/mod.rs:297-304 | `format_query`. No contract of its own; the `Topics.FormatQuery*` rows and `Topics.PlusInTopicSurvives` state its properties. |
| `Topics.FormatQueryNoWhitespace` | src/query/mod.rs:297-304 | A formatted topic contains no whitespace. |
| `Topics.FormatQuerySeparated` | src/query/mod.rs:297-304 | For a topic with no `+` of its own, the result never starts or ends with `+` and never contains `++`. For a non-blank topic, splitting the result at `+` gives the topic's words back. |
| `Topics.PlusInTopicSurvives` | src/query/mod.rs:297-304 | The `+`-free condition above is needed: a `+` inside a topic is kept, so the topic `+` formats to `+`. |
| `Topics.FormatQueryEmptyIffBlank` | src/query/mod.rs:297-304 | The result is empty exactly when the topic is all whitespace. |
| `Topics.FormatQueryIdempotent` | src/query/mod.rs:297-304 | Formatting an already formatted topic changes nothing. |
| `Topics.FormatQueryConcat` | src/query/mod.rs:297-304 | Take two non-blank topics joined by a space. Formatting them gives their two formatted forms joined by `+`. |
| `Topics.FormatQueries` | src/query/mod.rs:306-314 | `format_queries`. No contract of its own; `Topics.FormatQueriesAsOneTopic` and `Topics.BlankTopicLeavesStrayPlus` state its properties. |
| `Topics.FormatQueriesAsOneTopic` | src/query/mod.rs:306-314 | If no topic is blank, the empty list included, `format_queries` equals formatting all the topics as one space-separated topic. |
| `Topics.BlankTopicLeavesStrayPlus` | src/query/mod.rs:306-314 | As written, when a blank topic follows a topic `t`, the result is `format_query(t) + "+"`. |
| `Topics.FormatQueriesAllWordsSeparated` | src/query/mod.rs:306-314 | Corrected form: all words of all topics joined by `+`. It never has a stray or doubled `+` for topics with no `+` of their own. It agrees with `format_queries` whenever no topic is blank, the empty list included. |
| `WorkTypes.Label` | src/query/types.rs:48-80 | `Type::label`. No contract of its own; `WorkTypes.FromLabelOfLabel` and `WorkTypes.LabelInjective` state its properties. |
| `WorkTypes.Id` | src/query/types.rs:82-113 | `Type::id`. No contract of its own; `WorkTypes.FromStrOfId` and `WorkTypes.IdInjective` state its properties. |
| `WorkTypes.FromStr` | src/query/types.rs:116-152 | A failed parse is always `InvalidTypeName` carrying exactly the input string. `WorkTypes.FromStrOfId`, `WorkTypes.FromStrSound` and `WorkTypes.FromStrRejects` state which strings it accepts. |
| `WorkTypes.FromStrOfId` | src/query/types.rs:82-153 | Round trip: for each of the 28 types, `from_str(id(t))` is `Ok(t)`. |
| `WorkTypes.FromStrSound` | src/query/types.rs:116-148 | A string that parses to `t` is exactly `t`'s id. |
| `WorkTypes.FromStrRejects` | src/query/types.rs:116-152 | `from_str` fails exactly on the strings that are no type's id. Its error is `InvalidTypeName` carrying that very string. |
| `WorkTypes.IdInjective` | src/query/types.rs:82-113 | Different types have different ids. |
| `WorkTypes.FromLabelOfLabel` | src/query/types.rs:48-80 | Each of the 28 labels reads back to its type through `FromLabel`, the inverse of `Label`. |
| `WorkTypes.LabelInjective` | src/query/types.rs:48-80 | Different types have different labels. |
| `WorkTypes.ToCrossRefType` | src/query/types.rs:156-163 | `Into<CrossRefType> for Type`. No contract of its own; `WorkTypes.ToCrossRefTypeRoundTrip` states its properties. |
| `WorkTypes.ToCrossRefTypeRoundTrip` | src/query/types.rs:156-163 | The `CrossRefType` record carries the type's id and label, and its id parses back to the type. |

## Left out

- Serialisation with serde, and the response records that only hold data (`WorkList`, `Work`, `FundingBody` and the rest). They have no behaviour.
- chrono calendar semantics. A decoded date is the raw `(year, month, day)` triple given to `NaiveDate::from_ymd`: `(y, 0, 0)` for a year-only array, `(y, m, 0)` for a year-month array. `from_ymd` panics on every triple that is not a calendar date in chrono's range: a month of 0 or above 12, a day of 0 or past the end of its month, or a year outside about ±262,000. So year-only and year-month arrays, `[[2019, 13, 1]]`, `[[2019, 2, 30]]` and most large `u32` years panic in the library. The model returns the raw triple for all of them and claims no calendar validity.
- Unicode whitespace. `split_whitespace` is modelled with its ASCII members: space, tab, line feed, vertical tab, form feed and carriage return. The other Unicode `White_Space` characters are not modelled.
- `usize` width. Row counts, offsets and timestamps are unbounded naturals.
- Decimal formatting. `NatToString` stands in for Rust's `to_string`. Only the properties the proofs need are established: it is non-empty, all digits, and injective.
- Copy-on-write strings. `Cow` borrowed/owned is not modelled; every key and value is a plain string.
- Filter contents. Concrete filter enums (`WorkFilter`, `MembersFilter`, `FundersFilter`) and facets are not part of this model. A filter is its key and optional value.
- `Visibility::as_str`. It is not used by any rendering in this model.
- `crate::error`. Its internals are not part of this model. The one error `from_str` reports is `InvalidTypeName(name)`.
- The `Types` enum and the commented-out test in src/query/types.rs.
- The `Result` wrapper on routes. `route` and `to_url` return `Result<String>`, but none of the modelled routes can fail, so the model returns plain strings.
- The route of a whole query. `CrossrefQuery::to_url` uses the query's own `route`, which is not part of this model. `ToUrl` takes any of the modelled route sources: a component, a resource or a parameter slice.

## Findings

| source | as written | input that shows it | evidently intended | confidence | as-written member | corrected member |
|---|---|---|---|---|---|---|
| src/query/mod.rs:306-314 | Every topic is formatted and then joined with `+`, blank topics included. | Topics `[t, " "]` give `format_query(t) + "+"`, for example `["a", " "]` gives `a+`. | The doc comment describes "all words combined by '+'", so there should be no stray `+` for a blank topic. | low; not executed | `Topics.BlankTopicLeavesStrayPlus` | `Topics.FormatQueriesAllWordsSeparated` |

=== FILE: date_parts.dfy ===
/** The API's nested-array date encoding (`date-parts`) and its decoding into a
    single date, a range or a list of dates (src/response/work.rs). */
module DateParts {
  import opened Wrappers

  /** Rust `u32`, the element type of a date-parts component. */
  type u32 = x: int | 0 <= x < 0x1_0000_0000

  /** Rust `i32`, the year argument of `NaiveDate::from_ymd`. */
  type i32 = x: int | -0x8000_0000 <= x < 0x8000_0000

  /** `v as i32`: reinterprets the 32 bits, so values from 2^31 upwards wrap
      to negative years. */
  function AsI32(v: u32): (y: i32)
    ensures v < 0x8000_0000 ==> y == v
    ensures v >= 0x8000_0000 ==> y < 0 && y % 0x1_0000_0000 == v
  {
    if v < 0x8000_0000 then v else v - 0x1_0000_0000
  }

  /** The `u32` whose reinterpretation is `y`. */
  function I32Bits(y: i32): (v: u32)
    ensures AsI32(v) == y
  {
    if y >= 0 then y else y + 0x1_0000_0000
  }

  /** A decoded date, kept as the raw (year, month, day) arguments handed to
      `NaiveDate::from_ymd`; a missing month or day is passed as 0. */
  datatype NaiveDate = NaiveDate(year: i32, month: u32, day: u32)

  /** `DateField`: what a date-parts value can decode to. */
  datatype DateField =
    | Single(date: NaiveDate)
    | Range(from: NaiveDate, to: NaiveDate)
    | Multi(dates: seq<NaiveDate>)

  /** `DateParts(Vec<Vec<Option<u32>>>)`: each inner array is one candidate
      date `[year, month?, day?]`; a JSON `null` component is `None`. */
  datatype DateParts = DateParts(parts: seq<seq<Option<u32>>>)

  /** `Date`: full date information of an item. */
  datatype Date = Date(dateParts: DateParts, timestamp: nat, dateTime: string)

  /** `PartialDate`: a date that may carry only a year, or a year and month. */
  datatype PartialDate = PartialDate(dateParts: DateParts)

  /** The dates a `DateField` holds, in order. */
  function DatesOf(f: DateField): seq<NaiveDate> {
    match f
    case Single(d) => [d]
    case Range(from, to) => [from, to]
    case Multi(ds) => ds
  }

  /** The inner helper `naive`: one inner array to a date. Lengths 1 to 3 are
      year, year-month and year-month-day; any other length, or a `null`
      among the components present, gives no date. */
  function Naive(v: seq<Option<u32>>): (r: Option<NaiveDate>)
    ensures r.Some? <==> 1 <= |v| <= 3 && forall i :: 0 <= i < |v| ==> v[i].Some?
    ensures r.Some? ==> r.value.year == AsI32(v[0].value)
    ensures r.Some? ==> r.value.month == (if |v| >= 2 then v[1].value else 0)
    ensures r.Some? ==> r.value.day == (if |v| == 3 then v[2].value else 0)
  {
    match |v|
    case 0 => None
    case 1 =>
      var y :- v[0];
      Some(NaiveDate(AsI32(y), 0, 0))
    case 2 =>
      var y :- v[0];
      var m :- v[1];
      Some(NaiveDate(AsI32(y), m, 0))
    case 3 =>
      var y :- v[0];
      var m :- v[1];
      var d :- v[2];
      Some(NaiveDate(AsI32(y), m, d))
    case _ => None
  }

  /** `iter().map(naive).collect::<Option<Vec<_>>>()`: every inner array
      decoded, in order, or nothing at all as soon as one of them fails. */
  function CollectDates(parts: seq<seq<Option<u32>>>): (r: Option<seq<NaiveDate>>)
    ensures r.Some? <==> forall i :: 0 <= i < |parts| ==> Naive(parts[i]).Some?
    ensures r.Some? ==> |r.value| == |parts|
    ensures r.Some? ==> forall i :: 0 <= i < |parts| ==> Naive(parts[i]) == Some(r.value[i])
  {
    if |parts| == 0 then Some([])
    else
      var d :- Naive(parts[0]);
      var ds :- CollectDates(parts[1..]);
      Some([d] + ds)
  }

  /** `DateParts::as_date`. The number of inner arrays selects the variant;
      decoding is all-or-nothing for every arity; a range is not checked
      for `from <= to`. */
  function AsDate(dp: DateParts): (r: Option<DateField>)
    ensures r.Some? <==> |dp.parts| > 0 && forall i :: 0 <= i < |dp.parts| ==> Naive(dp.parts[i]).Some?
    ensures r.Some? ==> (r.value.Single? <==> |dp.parts| == 1)
    ensures r.Some? ==> (r.value.Range? <==> |dp.parts| == 2)
    ensures r.Some? ==> (r.value.Multi? <==> |dp.parts| >= 3)
    ensures r.Some? ==> |DatesOf(r.value)| == |dp.parts|
    ensures r.Some? ==> forall i :: 0 <= i < |dp.parts| ==> Naive(dp.parts[i]) == Some(DatesOf(r.value)[i])
  {
    var p := dp.parts;
    match |p|
    case 0 => None
    case 1 =>
      var d :- Naive(p[0]);
      Some(Single(d))
    case 2 =>
      var from :- Naive(p[0]);
      var to :- Naive(p[1]);
      Some(Range(from, to))
    case _ =>
      var ds :- CollectDates(p);
      Some(Multi(ds))
  }

  /** `Date::as_date_field` delegates to the date parts. */
  function DateAsDateField(d: Date): (r: Option<DateField>)
    ensures r == AsDate(d.dateParts)
  {
    AsDate(d.dateParts)
  }

  /** `PartialDate::as_date_field` delegates to the date parts. */
  function PartialDateAsDateField(d: PartialDate): (r: Option<DateField>)
    ensures r == AsDate(d.dateParts)
  {
    AsDate(d.dateParts)
  }

  /** A date written back as a full `[year, month, day]` inner array. */
  function EncodeDate(d: NaiveDate): seq<Option<u32>> {
    [Some(I32Bits(d.year)), Some(d.month), Some(d.day)]
  }

  /** A date field written back as date parts, one inner array per date. */
  function Encode(f: DateField): DateParts {
    DateParts(seq(|DatesOf(f)|, i requires 0 <= i < |DatesOf(f)| => EncodeDate(DatesOf(f)[i])))
  }

  /** The shapes `as_date` can produce (its contract fixes the variant by the
      number of inner arrays): a `Multi` holds at least three dates. */
  predicate WellShaped(f: DateField) {
    f.Multi? ==> |f.dates| >= 3
  }

  /** Round trip: writing a well-shaped date field out as date parts and
      decoding it again gives the same field back. */
  lemma {:induction false} AsDateEncode(f: DateField)
    requires WellShaped(f)
    ensures AsDate(Encode(f)) == Some(f)
  {
    var dp := Encode(f);
    var ds := DatesOf(f);
    forall i | 0 <= i < |dp.parts|
      ensures Naive(dp.parts[i]) == Some(ds[i])
    {
      assert dp.parts[i] == EncodeDate(ds[i]);
    }
    var r := AsDate(dp);
    assert r.Some?;
    assert DatesOf(r.value) == ds;
  }

  /** All-or-nothing: one undecodable inner array discards the whole value,
      whatever its arity, so three or more arrays never give a shorter list. */
  lemma AsDateAllOrNothing(dp: DateParts, i: nat)
    requires i < |dp.parts| && Naive(dp.parts[i]).None?
    ensures AsDate(dp).None?
  {
  }

  /** Sample decodings: a full date, a range kept in the order given,
      an all-year list, a `null` year, an empty array, and a list with one
      `null` year that is dropped as a whole. */
  lemma DecodingExamples()
    ensures AsDate(DateParts([[Some(2017), Some(10), Some(11)]])) == Some(Single(NaiveDate(2017, 10, 11)))
    ensures AsDate(DateParts([[Some(2021)], [Some(2020)]]))
         == Some(Range(NaiveDate(2021, 0, 0), NaiveDate(2020, 0, 0)))
    ensures AsDate(DateParts([[Some(2019)], [Some(2020)], [Some(2021)]]))
         == Some(Multi([NaiveDate(2019, 0, 0), NaiveDate(2020, 0, 0), NaiveDate(2021, 0, 0)]))
    ensures AsDate(DateParts([[None]])).None?
    ensures AsDate(DateParts([])).None?
    ensures AsDate(DateParts([[Some(2019)], [None], [Some(2021)]])).None?
    ensures AsDate(DateParts([[Some(2019), Some(1), Some(2), Some(3)]])).None?
  {
    var multi := DateParts([[Some(2019)], [Some(2020)], [Some(2021)]]);
    assert Naive(multi.parts[0]).Some? && Naive(multi.parts[1]).Some? && Naive(multi.parts[2]).Some?;
    var r := AsDate(multi);
    assert DatesOf(r.value) == [NaiveDate(2019, 0, 0), NaiveDate(2020, 0, 0), NaiveDate(2021, 0, 0)];
  }
}

=== FILE: query.dfy ===
/** Rendering of query parameters, filter lists and resource routes into the
    pieces of a request URL (src/query/mod.rs). */
module Query {
  import opened Wrappers
  import opened Strings

  /** What both rendering traits ask of an implementor: a key and an optional
      value (`ParamFragment::key`/`value`, `CrossrefQueryParam::param_key`/
      `param_value`). A filter is modelled by its key and value alone. */
  datatype KeyValue = KeyValue(key: string, value: Option<string>)

  /** `key` alone, or `key`, `sep`, `value`. */
  function Render(kv: KeyValue, sep: char): string {
    match kv.value
    case Some(v) => kv.key + [sep] + v
    case None => kv.key
  }

  /** Reads a rendered pair back by cutting at the first `sep`. */
  function Unrender(s: string, sep: char): KeyValue {
    match FirstIndexOf(s, sep)
    case None => KeyValue(s, None)
    case Some(i) => KeyValue(s[..i], Some(s[i + 1..]))
  }

  lemma RenderRoundTrip(kv: KeyValue, sep: char)
    requires Avoids(kv.key, {sep})
    ensures Unrender(Render(kv, sep), sep) == kv
  {
    match kv.value
    case None =>
    case Some(v) =>
      FirstIndexOfCut(kv.key, v, sep);
      var s := kv.key + [sep] + v;
      assert s[..|kv.key|] == kv.key && s[|kv.key| + 1..] == v;
  }

  /** `ParamFragment::fragment`: `key` or `key:value`. */
  function Fragment(kv: KeyValue): string {
    Render(kv, ':')
  }

  /** `CrossrefQueryParam::param`: `key` or `key=value`. */
  function Param(kv: KeyValue): string {
    Render(kv, '=')
  }

  /** A fragment carries its key before the first `:` and its value, if any,
      after it; with no value there is no `:` beyond those of the key. */
  lemma FragmentRoundTrip(kv: KeyValue)
    requires Avoids(kv.key, {':'})
    ensures Unrender(Fragment(kv), ':') == kv
  {
    RenderRoundTrip(kv, ':');
  }

  /** A parameter carries its key before the first `=` and its value, if any,
      after it; a parameter without value holds no `=` beyond its key's. */
  lemma ParamRoundTrip(kv: KeyValue)
    requires Avoids(kv.key, {'='})
    ensures Unrender(Param(kv), '=') == kv
  {
    RenderRoundTrip(kv, '=');
  }

  /** The `(T, T)` impl: a key and a value that is always present. */
  function PairParam(key: string, value: string): KeyValue {
    KeyValue(key, Some(value))
  }

  lemma PairParamRendering(key: string, value: string)
    requires Avoids(key, {'='})
    ensures Unrender(Param(PairParam(key, value)), '=') == KeyValue(key, Some(value))
  {
    RenderRoundTrip(PairParam(key, value), '=');
  }

  /** Sort direction. */
  datatype Order = Asc | Desc

  function OrderName(o: Order): string {
    match o
    case Asc => "asc"
    case Desc => "desc"
  }

  function OrderParam(o: Order): KeyValue {
    KeyValue("order", Some(OrderName(o)))
  }

  /** Sort field. */
  datatype Sort =
    | Score | Updated | Deposited | Indexed | Published | PublishedPrint
    | PublishedOnline | Issued | IsReferencedByCount | ReferenceCount

  /** `Sort::as_str`; note the API name `is-reference-by-count`, not
      `is-referenced-by-count`. */
  function SortName(s: Sort): string {
    match s
    case Score => "score"
    case Updated => "updated"
    case Deposited => "deposited"
    case Indexed => "indexed"
    case Published => "published"
    case PublishedPrint => "published-print"
    case PublishedOnline => "published-online"
    case Issued => "issued"
    case IsReferencedByCount => "is-reference-by-count"
    case ReferenceCount => "reference-count"
  }

  function SortParam(s: Sort): KeyValue {
    KeyValue("sort", Some(SortName(s)))
  }

  /** The order parameter renders as `order=<name>`, and the two directions
      render differently. */
  lemma OrderParamRendering(o: Order, o': Order)
    ensures Param(OrderParam(o)) == "order=" + OrderName(o)
    ensures Param(OrderParam(o)) == Param(OrderParam(o')) ==> o == o'
  {
    var p := Param(OrderParam(o));
    var p' := Param(OrderParam(o'));
    assert p == "order" + ['='] + OrderName(o);
    assert p' == "order" + ['='] + OrderName(o');
    if p == p' {
      assert OrderName(o) == p[6..] == p'[6..] == OrderName(o');
    }
  }

  /** The sort parameter renders as `sort=<name>`, and different fields
      render differently. */
  lemma SortParamRendering(s: Sort, s': Sort)
    ensures Param(SortParam(s)) == "sort=" + SortName(s)
    ensures Param(SortParam(s)) == Param(SortParam(s')) ==> s == s'
  {
    var p := Param(SortParam(s));
    var p' := Param(SortParam(s'));
    assert p == "sort" + ['='] + SortName(s);
    assert p' == "sort" + ['='] + SortName(s');
    if p == p' {
      assert SortName(s) == p[5..] == p'[5..] == SortName(s');
      SortNameInjective(s, s');
    }
  }

  /** The ten sort names are pairwise distinct. */
  lemma SortNameInjective(a: Sort, b: Sort)
    ensures SortName(a) == SortName(b) ==> a == b
  {
  }

  /** Pagination: a row limit, an offset, both together, or a random sample. */
  datatype ResultControl =
    | Rows(rows: nat)
    | Offset(offset: nat)
    | RowsOffset(rows: nat, offset: nat)
    | Sample

  /** The `CrossrefQueryParam` impl of `ResultControl`. Rows and offset
      together keep the API's shape: key `rows=<rows>`, value `offset=<offset>`. */
  function ControlParam(c: ResultControl): KeyValue {
    match c
    case Rows(r) => KeyValue("rows", Some(NatToString(r)))
    case Offset(o) => KeyValue("offset", Some(NatToString(o)))
    case RowsOffset(r, o) => KeyValue("rows=" + NatToString(r), Some("offset=" + NatToString(o)))
    case Sample => KeyValue("sample", None)
  }

  /** What the rendered pagination parameter reads as at its first `=`. */
  function ControlReading(c: ResultControl): KeyValue {
    match c
    case Rows(r) => KeyValue("rows", Some(NatToString(r)))
    case Offset(o) => KeyValue("offset", Some(NatToString(o)))
    case RowsOffset(r, o) => KeyValue("rows", Some(NatToString(r) + "=offset=" + NatToString(o)))
    case Sample => KeyValue("sample", None)
  }

  /** The pagination parameter is its reading rendered back with `=`. */
  lemma ControlParamAsReading(c: ResultControl)
    ensures Param(ControlParam(c)) == Render(ControlReading(c), '=')
  {
    match c
    case RowsOffset(r, o) =>
      var (rs, os) := (NatToString(r), NatToString(o));
      assert Param(ControlParam(c)) == ("rows=" + rs) + "=" + ("offset=" + os);
    case _ =>
  }

  /** The rendered pagination parameter: `rows=<n>`, `offset=<n>`,
      `rows=<rows>=offset=<offset>` or a bare `sample`. Read back at its first
      `=`, the key names the mode and the value holds the numbers, so
      rows-with-offset reads as a `rows` key whose value is
      `<rows>=offset=<offset>`, and sample has no value. */
  lemma ControlParamShape(c: ResultControl)
    ensures Unrender(Param(ControlParam(c)), '=') == ControlReading(c)
    ensures c.RowsOffset? ==> Param(ControlParam(c)) == "rows=" + NatToString(c.rows) + "=offset=" + NatToString(c.offset)
    ensures c.Sample? ==> Param(ControlParam(c)) == "sample"
  {
    ControlParamAsReading(c);
    RenderRoundTrip(ControlReading(c), '=');
  }

  /** A bare number never reads like rows-with-offset: its digits hold no `=`. */
  lemma DigitsNotRowsOffset(n: nat, r: nat, o: nat)
    ensures NatToString(n) != NatToString(r) + "=offset=" + NatToString(o)
  {
    var s := NatToString(r) + "=offset=" + NatToString(o);
    assert s[|NatToString(r)|] == '=';
  }

  /** A digit string followed by `=offset=` and another string is cut
      unambiguously. */
  lemma OffsetCut(x: string, y: string, x': string, y': string)
    requires IsDigits(x) && IsDigits(x')
    requires x + "=offset=" + y == x' + "=offset=" + y'
    ensures x == x' && y == y'
  {
    assert Avoids(x, {'='}) && Avoids(x', {'='});
    assert "=offset=" == ['='] + "offset=";
    assert x + "=offset=" + y == x + ['='] + ("offset=" + y);
    assert x' + "=offset=" + y' == x' + ['='] + ("offset=" + y');
    SplitAtFirst(x, "offset=" + y, x', "offset=" + y', '=');
    assert y == ("offset=" + y)[7..];
    assert y' == ("offset=" + y')[7..];
  }

  /** Rows-with-offset values cut at their first `=` give back both numbers. */
  lemma RowsOffsetValueInjective(r: nat, o: nat, r': nat, o': nat)
    requires NatToString(r) + "=offset=" + NatToString(o) == NatToString(r') + "=offset=" + NatToString(o')
    ensures r == r' && o == o'
  {
    OffsetCut(NatToString(r), NatToString(o), NatToString(r'), NatToString(o'));
    NatToStringInjective(r, r');
    NatToStringInjective(o, o');
  }

  /** Different pagination controls read differently: the key tells rows from
      offset from sample, a `=` in the value tells rows-with-offset from rows,
      and the digits give back the numbers. */
  lemma ControlReadingInjective(a: ResultControl, b: ResultControl)
    requires ControlReading(a) == ControlReading(b)
    ensures a == b
  {
    match (a, b)
    case (Rows(n), Rows(m)) => NatToStringInjective(n, m);
    case (Rows(n), RowsOffset(r, o)) => DigitsNotRowsOffset(n, r, o);
    case (RowsOffset(r, o), Rows(n)) => DigitsNotRowsOffset(n, r, o);
    case (RowsOffset(r, o), RowsOffset(r', o')) => RowsOffsetValueInjective(r, o, r', o');
    case (Offset(n), Offset(m)) => NatToStringInjective(n, m);
    case _ =>
  }

  /** Different pagination controls render to different parameters. */
  lemma ControlParamInjective(a: ResultControl, b: ResultControl)
    requires Param(ControlParam(a)) == Param(ControlParam(b))
    ensures a == b
  {
    ControlParamShape(a);
    ControlParamShape(b);
    ControlReadingInjective(a, b);
  }

  /** Top-level resource kinds. */
  datatype Component = Works | Funders | Prefixes | Members | Types | Journals

  function ComponentName(c: Component): string {
    match c
    case Works => "works"
    case Funders => "funders"
    case Prefixes => "prefixes"
    case Members => "members"
    case Types => "types"
    case Journals => "journals"
  }

  /** The six component names are pairwise distinct. */
  lemma ComponentNameInjective(a: Component, b: Component)
    ensures ComponentName(a) == ComponentName(b) ==> a == b
  {
  }

  /** The route of a single component, `/<name>`. */
  function ComponentRoute(c: Component): string {
    "/" + ComponentName(c)
  }

  /** A route to one component, or to the works below one item of a component. */
  datatype ResourceComponent =
    | Single(component: Component)
    | Combined(primary: Component, identifier: string)

  /** `ResourceComponent::route`; the identifier is inserted unescaped. */
  function ResourceRoute(rc: ResourceComponent): string {
    match rc
    case Single(c) => ComponentRoute(c)
    case Combined(p, id) => ComponentRoute(p) + "/" + id + ComponentRoute(Works)
  }

  /** A route after its leading `/`, read as a pair cut at the next `/`: the
      component name, then for a combined route the rest. */
  function RouteReading(rc: ResourceComponent): KeyValue {
    match rc
    case Single(c) => KeyValue(ComponentName(c), None)
    case Combined(p, id) => KeyValue(ComponentName(p), Some(id + "/works"))
  }

  /** A component name holds no `/`. */
  lemma ComponentNameAvoidsSlash(c: Component)
    ensures Avoids(ComponentName(c), {'/'})
  {
    match c
    case Works =>
    case Funders =>
    case Prefixes =>
    case Members =>
    case Types =>
    case Journals =>
  }

  /** A combined route is `/<primary>/` followed by the identifier and `/works`. */
  lemma CombinedRouteShape(p: Component, id: string)
    ensures ResourceRoute(Combined(p, id)) == "/" + (ComponentName(p) + ['/'] + (id + "/works"))
  {
    var n := ComponentName(p);
    assert ComponentRoute(Works) == "/works";
    calc {
      ResourceRoute(Combined(p, id));
      ("/" + n) + "/" + id + "/works";
      { assert "/" == ['/']; }
      "/" + (n + ['/'] + (id + "/works"));
    }
  }

  /** A single route is `/<name>`; a combined one is
      `/<primary>/<identifier>/works`, whatever the identifier holds; read
      back at the `/` after the component name, either gives its parts. */
  lemma ResourceRouteShape(rc: ResourceComponent)
    ensures rc.Single? ==> ResourceRoute(rc) == "/" + ComponentName(rc.component)
    ensures rc.Combined? ==> ResourceRoute(rc) == "/" + ComponentName(rc.primary) + "/" + rc.identifier + "/works"
    ensures ResourceRoute(rc) == "/" + Render(RouteReading(rc), '/')
    ensures Unrender(ResourceRoute(rc)[1..], '/') == RouteReading(rc)
  {
    var kv := RouteReading(rc);
    match rc
    case Single(c) =>
      ComponentNameAvoidsSlash(c);
      RenderRoundTrip(kv, '/');
      assert ResourceRoute(rc)[1..] == kv.key;
    case Combined(p, id) =>
      ComponentNameAvoidsSlash(p);
      RenderRoundTrip(kv, '/');
      CombinedRouteShape(p, id);
      var n := ComponentName(p);
      var rest := id + "/works";
      assert ResourceRoute(rc)[1..] == n + ['/'] + rest;
  }

  /** Different resources route differently: the component names hold no `/`,
      so the component name ends at the second `/` and the identifier is what
      lies between it and the trailing `/works`. */
  lemma ResourceRouteInjective(a: ResourceComponent, b: ResourceComponent)
    requires ResourceRoute(a) == ResourceRoute(b)
    ensures a == b
  {
    ResourceRouteShape(a);
    ResourceRouteShape(b);
    var ra := RouteReading(a);
    var rb := RouteReading(b);
    assert ra == rb;
    match a
    case Single(c) =>
      ComponentNameInjective(c, b.component);
    case Combined(p, id) =>
      ComponentNameInjective(p, b.primary);
      assert id == (id + "/works")[..|id|];
      assert b.identifier == (b.identifier + "/works")[..|b.identifier|];
  }

  /** Each filter's fragment, in list order. */
  function Fragments(filters: seq<KeyValue>): (r: seq<string>)
    ensures |r| == |filters|
    ensures forall i :: 0 <= i < |filters| ==> r[i] == Fragment(filters[i])
  {
    seq(|filters|, i requires 0 <= i < |filters| => Fragment(filters[i]))
  }

  /** The `Vec<T: Filter>` impl: one `filter` parameter whose value, always
      present, is the fragments joined by `,`. */
  function FilterParam(filters: seq<KeyValue>): KeyValue {
    KeyValue("filter", Some(Join(Fragments(filters), ',')))
  }

  /** A filter list renders as `filter=` followed by its fragments; an empty
      list still renders `filter=`; splitting the value at `,` recovers the
      fragments in order when none of them holds a `,`. */
  lemma FilterParamRendering(filters: seq<KeyValue>)
    ensures Unrender(Param(FilterParam(filters)), '=') == KeyValue("filter", Some(Join(Fragments(filters), ',')))
    ensures |filters| == 0 ==> Param(FilterParam(filters)) == "filter="
    ensures |filters| >= 1 && (forall i :: 0 <= i < |filters| ==> Avoids(Fragment(filters[i]), {','}))
        ==> SplitOn(Param(FilterParam(filters))[7..], {','}) == Fragments(filters)
  {
    ParamRoundTrip(FilterParam(filters));
    var p := Param(FilterParam(filters));
    assert p[7..] == Join(Fragments(filters), ',');
    if |filters| >= 1 && (forall i :: 0 <= i < |filters| ==> Avoids(Fragment(filters[i]), {','})) {
      SplitJoin(Fragments(filters), ',', {','});
    }
  }

  /** Each parameter rendered, in order. */
  function Params(ps: seq<KeyValue>): (r: seq<string>)
    ensures |r| == |ps|
    ensures forall i :: 0 <= i < |ps| ==> r[i] == Param(ps[i])
  {
    seq(|ps|, i requires 0 <= i < |ps| => Param(ps[i]))
  }

  /** The route of a slice of parameters: the rendered parameters joined by `&`. */
  function ParamsRoute(ps: seq<KeyValue>): string {
    Join(Params(ps), '&')
  }

  /** Splitting a parameter route at `&` recovers the parameters in the order
      given, when none of them holds a `&`. */
  lemma ParamsRouteRoundTrip(ps: seq<KeyValue>)
    requires |ps| >= 1
    requires forall i :: 0 <= i < |ps| ==> Avoids(Param(ps[i]), {'&'})
    ensures SplitOn(ParamsRoute(ps), {'&'}) == Params(ps)
  {
    SplitJoin(Params(ps), '&', {'&'});
  }

  /** The things that render a route: a component, a resource, or a slice of
      parameters. */
  datatype Routable =
    | ComponentTarget(component: Component)
    | ResourceTarget(resource: ResourceComponent)
    | ParamsTarget(params: seq<KeyValue>)

  function Route(t: Routable): string {
    match t
    case ComponentTarget(c) => ComponentRoute(c)
    case ResourceTarget(rc) => ResourceRoute(rc)
    case ParamsTarget(ps) => ParamsRoute(ps)
  }

  /** `CrossrefQuery::to_url`: the base path followed by the route. */
  function ToUrl(basePath: string, t: Routable): string {
    basePath + Route(t)
  }

  /** A URL starts with its base path and the rest is exactly the route. */
  lemma ToUrlShape(basePath: string, t: Routable)
    ensures basePath <= ToUrl(basePath, t)
    ensures ToUrl(basePath, t)[|basePath|..] == Route(t)
  {
  }

  /** Under one base path, different resources give different URLs. */
  lemma ToUrlInjective(basePath: string, a: ResourceComponent, b: ResourceComponent)
    requires ToUrl(basePath, ResourceTarget(a)) == ToUrl(basePath, ResourceTarget(b))
    ensures a == b
  {
    ToUrlShape(basePath, ResourceTarget(a));
    ToUrlShape(basePath, ResourceTarget(b));
    ResourceRouteInjective(a, b);
  }

  /** Sample pagination renderings: rows with offset as one
      parameter, sample with no value. */
  lemma PaginationExamples()
    ensures Param(ControlParam(RowsOffset(20, 40))) == "rows=20=offset=40"
    ensures Param(ControlParam(Sample)) == "sample"
  {
    assert NatToString(20) == "20";
    assert NatToString(40) == "40";
  }

  /** The route of a funder's works. */
  lemma FunderWorksRouteExample()
    ensures ResourceRoute(Combined(Funders, "10.13039/100000001")) == "/funders/10.13039/100000001/works"
  {
    CombinedRouteShape(Funders, "10.13039/100000001");
  }

  /** A parameter route keeps the order it is given. */
  lemma ParamsRouteExample()
    ensures ParamsRoute([OrderParam(Desc), SortParam(Score)]) == "order=desc&sort=score"
  {
    var ps := [OrderParam(Desc), SortParam(Score)];
    assert Param(ps[0]) == "order=desc";
    assert Param(ps[1]) == "sort=score";
    assert Params(ps) == ["order=desc", "sort=score"];
  }
}

=== FILE: strings.dfy ===
/** String helpers the query code relies on from Rust's standard library:
    `join`, `split` on a set of separator characters, and the decimal
    rendering of an unsigned integer (`to_string` / `format!("{}")`). */
module Strings {
  import opened Wrappers

  /** No character of `s` is in `cs`. */
  predicate Avoids(s: string, cs: set<char>) {
    forall i :: 0 <= i < |s| ==> s[i] !in cs
  }

  /** `parts.join(sep)`: the parts in order with one `sep` between neighbours. */
  function Join(parts: seq<string>, sep: char): string {
    if |parts| == 0 then []
    else if |parts| == 1 then parts[0]
    else parts[0] + [sep] + Join(parts[1..], sep)
  }

  /** `s.split(|c| seps.contains(&c))`: the maximal runs between separator
      characters, empty runs included, so there is always at least one field. */
  function SplitOn(s: string, seps: set<char>): (fields: seq<string>)
    ensures |fields| >= 1
    ensures forall i :: 0 <= i < |fields| ==> Avoids(fields[i], seps)
  {
    if |s| == 0 then [[]]
    else
      var rest := SplitOn(s[1..], seps);
      if s[0] in seps then [[]] + rest
      else [[s[0]] + rest[0]] + rest[1..]
  }

  /** A string free of separators is one field. */
  lemma {:induction false} SplitOnAvoiding(s: string, seps: set<char>)
    requires Avoids(s, seps)
    ensures SplitOn(s, seps) == [s]
  {
    if |s| > 0 {
      SplitOnAvoiding(s[1..], seps);
      assert [s[0]] + s[1..] == s;
    }
  }

  /** Splitting distributes over a separator character: the fields of
      `a + [c] + b` are those of `a` followed by those of `b`. */
  lemma {:induction false} SplitOnConcat(a: string, c: char, b: string, seps: set<char>)
    requires c in seps
    ensures SplitOn(a + [c] + b, seps) == SplitOn(a, seps) + SplitOn(b, seps)
  {
    var s := a + [c] + b;
    if |a| == 0 {
      assert s[1..] == b;
    } else {
      assert s[1..] == a[1..] + [c] + b;
      SplitOnConcat(a[1..], c, b, seps);
    }
  }

  /** Splitting a join on its separator recovers the parts, provided there is
      at least one part and no part contains a separator. */
  lemma {:induction false} SplitJoin(parts: seq<string>, sep: char, seps: set<char>)
    requires sep in seps
    requires |parts| >= 1
    requires forall i :: 0 <= i < |parts| ==> Avoids(parts[i], seps)
    ensures SplitOn(Join(parts, sep), seps) == parts
  {
    SplitOnAvoiding(parts[0], seps);
    if |parts| > 1 {
      SplitOnConcat(parts[0], sep, Join(parts[1..], sep), seps);
      SplitJoin(parts[1..], sep, seps);
      assert [parts[0]] + parts[1..] == parts;
    }
  }

  /** A join avoids every character set that its parts and its separator avoid. */
  lemma {:induction false} JoinAvoids(parts: seq<string>, sep: char, cs: set<char>)
    requires sep !in cs
    requires forall i :: 0 <= i < |parts| ==> Avoids(parts[i], cs)
    ensures Avoids(Join(parts, sep), cs)
  {
    if |parts| > 1 {
      JoinAvoids(parts[1..], sep, cs);
      var r := Join(parts, sep);
      var t := Join(parts[1..], sep);
      assert r == parts[0] + [sep] + t;
      forall i | 0 <= i < |r|
        ensures r[i] !in cs
      {
        if i < |parts[0]| {
          assert r[i] == parts[0][i];
        } else if i > |parts[0]| {
          assert r[i] == t[i - |parts[0]| - 1];
        }
      }
    }
  }

  /** Joining two non-empty lists is joining their joins. */
  lemma {:induction false} JoinConcat(xs: seq<string>, ys: seq<string>, sep: char)
    requires |xs| >= 1 && |ys| >= 1
    ensures Join(xs + ys, sep) == Join(xs, sep) + [sep] + Join(ys, sep)
  {
    if |xs| > 1 {
      assert (xs + ys)[1..] == xs[1..] + ys;
      JoinConcat(xs[1..], ys, sep);
    } else {
      assert (xs + ys)[1..] == ys;
    }
  }

  /** The first part is a prefix of the join. */
  lemma {:induction false} JoinStartsWithFirst(parts: seq<string>, sep: char)
    requires |parts| >= 1
    ensures parts[0] <= Join(parts, sep)
  {
  }

  /** When every part is non-empty and free of the separator, the join neither
      starts nor ends with the separator and never holds it twice in a row; it
      is empty exactly when there are no parts. */
  lemma {:induction false} JoinSeparated(parts: seq<string>, sep: char)
    requires forall i :: 0 <= i < |parts| ==> |parts[i]| > 0 && Avoids(parts[i], {sep})
    ensures var r := Join(parts, sep);
      && (|r| == 0 <==> |parts| == 0)
      && (|r| > 0 ==> r[0] != sep && r[|r| - 1] != sep)
      && (forall i :: 0 <= i < |r| - 1 ==> !(r[i] == sep && r[i + 1] == sep))
  {
    if |parts| > 1 {
      JoinSeparated(parts[1..], sep);
      var r := Join(parts, sep);
      var p := parts[0];
      var t := Join(parts[1..], sep);
      assert r == p + [sep] + t;
      forall i | 0 <= i < |r| - 1
        ensures !(r[i] == sep && r[i + 1] == sep)
      {
        if i < |p| {
          assert r[i] == p[i];
        } else {
          assert r[i + 1] == t[i - |p|];
        }
      }
    }
  }

  /** The position of the first `c` in `s`, if there is one. */
  function FirstIndexOf(s: string, c: char): (r: Option<nat>)
    ensures r.None? <==> Avoids(s, {c})
    ensures r.Some? ==> r.value < |s| && s[r.value] == c && Avoids(s[..r.value], {c})
  {
    if |s| == 0 then None
    else if s[0] == c then Some(0)
    else
      match FirstIndexOf(s[1..], c)
      case None => None
      case Some(i) => Some(i + 1)
  }

  /** In `x + [c] + y` with no `c` in `x`, the first `c` sits right after `x`. */
  lemma {:induction false} FirstIndexOfCut(x: string, y: string, c: char)
    requires Avoids(x, {c})
    ensures FirstIndexOf(x + [c] + y, c) == Some(|x|)
  {
    if |x| > 0 {
      assert (x + [c] + y)[1..] == x[1..] + [c] + y;
      FirstIndexOfCut(x[1..], y, c);
    }
  }

  /** Cutting at the first `c` is unambiguous: if `x + [c] + y` equals
      `x' + [c] + y'` and neither `x` nor `x'` holds a `c`, both sides agree. */
  lemma SplitAtFirst(x: string, y: string, x': string, y': string, c: char)
    requires Avoids(x, {c}) && Avoids(x', {c})
    requires x + [c] + y == x' + [c] + y'
    ensures x == x' && y == y'
  {
    var s := x + [c] + y;
    FirstIndexOfCut(x, y, c);
    FirstIndexOfCut(x', y', c);
    assert x == s[..|x|] == x';
    assert y == s[|x| + 1..] == y';
  }

  predicate IsDigits(s: string) {
    forall i :: 0 <= i < |s| ==> '0' <= s[i] <= '9'
  }

  function DigitChar(d: nat): (c: char)
    requires d < 10
    ensures '0' <= c <= '9' && c as int - '0' as int == d
  {
    ('0' as int + d) as char
  }

  /** Decimal rendering of `n`, most significant digit first, no leading zeros. */
  function NatToString(n: nat): (s: string)
    ensures |s| >= 1 && IsDigits(s)
  {
    if n < 10 then [DigitChar(n)]
    else NatToString(n / 10) + [DigitChar(n % 10)]
  }

  /** The number a string of decimal digits denotes. */
  function DigitsValue(s: string): nat
    requires IsDigits(s)
  {
    if |s| == 0 then 0
    else DigitsValue(s[..|s| - 1]) * 10 + (s[|s| - 1] as int - '0' as int)
  }

  lemma {:induction false} DigitsValueOfNatToString(n: nat)
    ensures DigitsValue(NatToString(n)) == n
  {
    if n >= 10 {
      var s := NatToString(n);
      assert s[..|s| - 1] == NatToString(n / 10);
      DigitsValueOfNatToString(n / 10);
    }
  }

  /** Distinct numbers render differently. */
  lemma NatToStringInjective(m: nat, n: nat)
    ensures NatToString(m) == NatToString(n) ==> m == n
  {
    DigitsValueOfNatToString(m);
    DigitsValueOfNatToString(n);
  }
}

=== FILE: topics.dfy ===
/** Free-text topics: `format_query` folds every whitespace run of a topic into
    one `+`, and `format_queries` joins several formatted topics with `+`
    (src/query/mod.rs). */
module Topics {
  import opened Strings

  /** The ASCII part of `char::is_whitespace`: space, tab, line feed, vertical
      tab, form feed and carriage return. */
  const Whitespace: set<char> := {' ', '\t', '\n', '\U{000B}', '\U{000C}', '\r'}

  /** Nothing but whitespace (the empty string included). */
  predicate Blank(s: string) {
    forall i :: 0 <= i < |s| ==> s[i] in Whitespace
  }

  /** The fields that are not empty, in order. */
  function NonEmpty(fields: seq<string>): (r: seq<string>)
    ensures forall i :: 0 <= i < |r| ==> |r[i]| > 0
  {
    if |fields| == 0 then []
    else (if |fields[0]| == 0 then [] else [fields[0]]) + NonEmpty(fields[1..])
  }

  lemma {:induction false} NonEmptyConcat(xs: seq<string>, ys: seq<string>)
    ensures NonEmpty(xs + ys) == NonEmpty(xs) + NonEmpty(ys)
  {
    if |xs| > 0 {
      assert (xs + ys)[1..] == xs[1..] + ys;
      NonEmptyConcat(xs[1..], ys);
    } else {
      assert xs + ys == ys;
    }
  }

  /** Dropping empty fields keeps every property of characters the fields share. */
  lemma {:induction false} NonEmptyAvoids(fields: seq<string>, cs: set<char>)
    requires forall i :: 0 <= i < |fields| ==> Avoids(fields[i], cs)
    ensures forall i :: 0 <= i < |NonEmpty(fields)| ==> Avoids(NonEmpty(fields)[i], cs)
  {
    if |fields| > 0 {
      NonEmptyAvoids(fields[1..], cs);
    }
  }

  /** Every field of a string avoids what the string avoids. */
  lemma {:induction false} SplitOnAvoidsInput(s: string, seps: set<char>, cs: set<char>)
    requires Avoids(s, cs)
    ensures forall i :: 0 <= i < |SplitOn(s, seps)| ==> Avoids(SplitOn(s, seps)[i], cs)
  {
    if |s| > 0 {
      SplitOnAvoidsInput(s[1..], seps, cs);
    }
  }

  /** `str::split_whitespace`: the non-empty runs of non-whitespace characters,
      in order (Rust defines it as a split at whitespace with the empty pieces
      filtered out). */
  function Words(s: string): seq<string> {
    NonEmpty(SplitOn(s, Whitespace))
  }

  /** Words are non-empty, hold no whitespace, and avoid whatever the string
      avoids. */
  lemma WordsAvoid(s: string, cs: set<char>)
    requires Avoids(s, cs)
    ensures forall i :: 0 <= i < |Words(s)| ==> |Words(s)[i]| > 0
    ensures forall i :: 0 <= i < |Words(s)| ==> Avoids(Words(s)[i], cs + Whitespace)
  {
    SplitOnAvoidsInput(s, Whitespace, cs);
    var fields := SplitOn(s, Whitespace);
    forall i | 0 <= i < |fields|
      ensures Avoids(fields[i], cs + Whitespace)
    {
      assert Avoids(fields[i], cs) && Avoids(fields[i], Whitespace);
    }
    NonEmptyAvoids(fields, cs + Whitespace);
  }

  /** A string has no words exactly when it is blank. */
  lemma {:induction false} WordsEmptyIffBlank(s: string)
    ensures |Words(s)| == 0 <==> Blank(s)
  {
    if |s| > 0 {
      var rest := SplitOn(s[1..], Whitespace);
      WordsEmptyIffBlank(s[1..]);
      if s[0] in Whitespace {
        assert SplitOn(s, Whitespace) == [[]] + rest;
        assert ([[]] + rest)[1..] == rest;
        assert Words(s) == NonEmpty(rest);
        assert Blank(s) <==> Blank(s[1..]);
      } else {
        var fields := SplitOn(s, Whitespace);
        assert fields[0] == [s[0]] + rest[0];
        assert NonEmpty(fields) == [fields[0]] + NonEmpty(fields[1..]);
        assert |Words(s)| > 0;
        assert !Blank(s);
      }
    } else {
      var fields: seq<string> := [[]];
      assert SplitOn(s, Whitespace) == fields;
      assert fields[1..] == [];
      assert Words(s) == NonEmpty([]);
    }
  }

  /** Words distribute over a whitespace character: the words of
      `a + [w] + b` are those of `a` followed by those of `b`. */
  lemma WordsConcat(a: string, w: char, b: string)
    requires w in Whitespace
    ensures Words(a + [w] + b) == Words(a) + Words(b)
  {
    SplitOnConcat(a, w, b, Whitespace);
    NonEmptyConcat(SplitOn(a, Whitespace), SplitOn(b, Whitespace));
  }

  /** `format_query`: the words of the topic joined by `+`. */
  function FormatQuery(topic: string): string {
    Join(Words(topic), '+')
  }

  /** A formatted topic holds no whitespace. */
  lemma FormatQueryNoWhitespace(topic: string)
    ensures Avoids(FormatQuery(topic), Whitespace)
  {
    WordsAvoid(topic, {});
    assert {} + Whitespace == Whitespace;
    JoinAvoids(Words(topic), '+', Whitespace);
  }

  /** For a topic without `+` of its own, every `+` of the result stands for
      one whitespace run between two words: the result never starts or ends
      with `+`, never holds `++`, and splitting it at `+` gives the words back. */
  lemma FormatQuerySeparated(topic: string)
    requires Avoids(topic, {'+'})
    ensures var r := FormatQuery(topic);
      && (|r| > 0 ==> r[0] != '+' && r[|r| - 1] != '+')
      && (forall i :: 0 <= i < |r| - 1 ==> !(r[i] == '+' && r[i + 1] == '+'))
      && (|Words(topic)| > 0 ==> SplitOn(r, {'+'}) == Words(topic))
  {
    WordsAvoid(topic, {'+'});
    var ws := Words(topic);
    forall i | 0 <= i < |ws|
      ensures |ws[i]| > 0 && Avoids(ws[i], {'+'})
    {
      assert Avoids(ws[i], {'+'} + Whitespace);
    }
    JoinSeparated(ws, '+');
    if |ws| > 0 {
      SplitJoin(ws, '+', {'+'});
    }
  }

  /** The `+`-free requirement above is needed: a `+` of the topic itself is
      kept, so the topic `+` formats to `+`, which starts and ends with `+`. */
  lemma PlusInTopicSurvives()
    ensures FormatQuery("+") == "+"
  {
    SplitOnAvoiding("+", Whitespace);
    assert NonEmpty(["+"]) == ["+"];
  }

  /** A formatted topic is empty exactly when the topic is blank. */
  lemma FormatQueryEmptyIffBlank(topic: string)
    ensures |FormatQuery(topic)| == 0 <==> Blank(topic)
  {
    WordsEmptyIffBlank(topic);
    WordsAvoid(topic, {});
    var ws := Words(topic);
    if |ws| > 0 {
      JoinStartsWithFirst(ws, '+');
    }
  }

  /** Formatting is idempotent. */
  lemma FormatQueryIdempotent(topic: string)
    ensures FormatQuery(FormatQuery(topic)) == FormatQuery(topic)
  {
    var r := FormatQuery(topic);
    FormatQueryNoWhitespace(topic);
    SplitOnAvoiding(r, Whitespace);
    if |r| == 0 {
      assert NonEmpty([r]) == [];
    } else {
      assert NonEmpty([r]) == [r];
    }
  }

  /** Two non-blank topics separated by whitespace format as the two
      formatted topics joined by `+`. */
  lemma FormatQueryConcat(a: string, b: string)
    requires !Blank(a) && !Blank(b)
    ensures FormatQuery(a + [' '] + b) == FormatQuery(a) + "+" + FormatQuery(b)
  {
    WordsConcat(a, ' ', b);
    WordsEmptyIffBlank(a);
    WordsEmptyIffBlank(b);
    JoinConcat(Words(a), Words(b), '+');
  }

  /** Each topic formatted, in order. */
  function FormatEach(topics: seq<string>): (r: seq<string>)
    ensures |r| == |topics|
    ensures forall i :: 0 <= i < |topics| ==> r[i] == FormatQuery(topics[i])
  {
    seq(|topics|, i requires 0 <= i < |topics| => FormatQuery(topics[i]))
  }

  /** `format_queries`: the formatted topics joined by `+`. */
  function FormatQueries(topics: seq<string>): string {
    Join(FormatEach(topics), '+')
  }

  /** A string that begins with a non-blank prefix is not blank. */
  lemma NotBlankExtends(p: string, s: string)
    requires p <= s && !Blank(p)
    ensures !Blank(s)
  {
    var i :| 0 <= i < |p| && p[i] !in Whitespace;
    assert s[i] == p[i];
  }

  /** When no topic is blank, formatting the topics one by one and joining
      them with `+` is the same as formatting them as one topic with a space
      between neighbours. */
  lemma {:induction false} FormatQueriesAsOneTopic(topics: seq<string>)
    requires forall i :: 0 <= i < |topics| ==> !Blank(topics[i])
    ensures FormatQueries(topics) == FormatQuery(Join(topics, ' '))
  {
    if |topics| == 0 {
      assert SplitOn([], Whitespace) == [[]];
      assert NonEmpty([[]]) == [];
    } else if |topics| > 1 {
      var rest := topics[1..];
      FormatQueriesAsOneTopic(rest);
      assert FormatEach(topics)[1..] == FormatEach(rest);
      JoinStartsWithFirst(rest, ' ');
      NotBlankExtends(rest[0], Join(rest, ' '));
      FormatQueryConcat(topics[0], Join(rest, ' '));
    }
  }

  /** As written, a blank topic still takes part in the join with its empty
      formatted form, so a blank topic after another leaves a stray `+`. */
  lemma BlankTopicLeavesStrayPlus(topic: string, blank: string)
    requires Blank(blank)
    ensures FormatQueries([topic, blank]) == FormatQuery(topic) + "+"
  {
    FormatQueryEmptyIffBlank(blank);
    var fs := FormatEach([topic, blank]);
    assert |fs[1..]| == 1 && fs[1..][0] == [];
    assert Join(fs[1..], '+') == [];
    assert Join(fs, '+') == fs[0] + ['+'] + [];
  }

  /** What the documentation of `format_queries` describes: all the words of
      all the topics, joined by `+`. */
  function FormatQueriesAllWords(topics: seq<string>): string {
    FormatQuery(Join(topics, ' '))
  }

  /** For topics without `+` of their own, the result never starts or ends
      with `+` and never holds `++`, whether or not some topics are blank; and
      it agrees with `format_queries` whenever no topic is blank. */
  lemma FormatQueriesAllWordsSeparated(topics: seq<string>)
    requires forall i :: 0 <= i < |topics| ==> Avoids(topics[i], {'+'})
    ensures var r := FormatQueriesAllWords(topics);
      && (|r| > 0 ==> r[0] != '+' && r[|r| - 1] != '+')
      && (forall i :: 0 <= i < |r| - 1 ==> !(r[i] == '+' && r[i + 1] == '+'))
    ensures (forall i :: 0 <= i < |topics| ==> !Blank(topics[i]))
        ==> FormatQueriesAllWords(topics) == FormatQueries(topics)
  {
    JoinAvoids(topics, ' ', {'+'});
    FormatQuerySeparated(Join(topics, ' '));
    if forall i :: 0 <= i < |topics| ==> !Blank(topics[i]) {
      FormatQueriesAsOneTopic(topics);
    }
  }
}

=== FILE: types.dfy ===
/** The closed set of work types, their ids and display labels, and parsing
    of ids back into types (src/query/types.rs). */
module WorkTypes {
  import opened Wrappers

  /** A work type; the variants are those of the API, in its order. */
  datatype Type =
    | BookSection
    | Monograph
    | Report
    | PeerReview
    | BookTrack
    | JournalArticle
    | BookPart
    | Other
    | Book
    | JournalVolume
    | BookSet
    | ReferenceEntry
    | ProceedingsArticle
    | Journal
    | Component
    | BookChapter
    | ProceedingsSeries
    | ReportSeries
    | Proceedings
    | Standard
    | ReferenceBook
    | PostedContent
    | JournalIssue
    | Dissertation
    | Dataset
    | BookSeries
    | EditedBook
    | StandardSeries

  /** `Type::label`: the display-friendly label. */
  function Label(t: Type): string {
    match t
    case BookSection => "Book Section"
    case Monograph => "Monograph"
    case Report => "Report"
    case PeerReview => "Peer Review"
    case BookTrack => "Book Track"
    case JournalArticle => "Journal Article"
    case BookPart => "Book Part"
    case Other => "Other"
    case Book => "Book"
    case JournalVolume => "Journal Volume"
    case BookSet => "Book Set"
    case ReferenceEntry => "Reference Entry"
    case ProceedingsArticle => "Proceedings Article"
    case Journal => "Journal"
    case Component => "Component"
    case BookChapter => "Book Chapter"
    case ProceedingsSeries => "Proceedings Series"
    case ReportSeries => "Report Series"
    case Proceedings => "Proceedings"
    case Standard => "Standard"
    case ReferenceBook => "Reference Book"
    case PostedContent => "Posted Content"
    case JournalIssue => "Journal Issue"
    case Dissertation => "Dissertation"
    case Dataset => "Dataset"
    case BookSeries => "Book Series"
    case EditedBook => "Edited Book"
    case StandardSeries => "Standard Series"
  }

  /** `Type::id`: the string that identifies the type in the API. */
  function Id(t: Type): string {
    match t
    case BookSection => "book-section"
    case Monograph => "monograph"
    case Report => "report"
    case PeerReview => "peer-review"
    case BookTrack => "book-track"
    case JournalArticle => "journal-article"
    case BookPart => "book-part"
    case Other => "other"
    case Book => "book"
    case JournalVolume => "journal-volume"
    case BookSet => "book-set"
    case ReferenceEntry => "reference-entry"
    case ProceedingsArticle => "proceedings-article"
    case Journal => "journal"
    case Component => "component"
    case BookChapter => "book-chapter"
    case ProceedingsSeries => "proceedings-series"
    case ReportSeries => "report-series"
    case Proceedings => "proceedings"
    case Standard => "standard"
    case ReferenceBook => "reference-book"
    case PostedContent => "posted-content"
    case JournalIssue => "journal-issue"
    case Dissertation => "dissertation"
    case Dataset => "dataset"
    case BookSeries => "book-series"
    case EditedBook => "edited-book"
    case StandardSeries => "standard-series"
  }

  /** The error `from_str` reports: the name it could not read. */
  datatype Error = InvalidTypeName(name: string)

  /** `Type::from_str`: an id back to its type; any other string is reported
      with exactly that string. */
  function FromStr(s: string): (r: Result<Type, Error>)
    ensures r.Err? ==> r.error == InvalidTypeName(s)
  {
    match s
    case "book-section" => Ok(BookSection)
    case "monograph" => Ok(Monograph)
    case "report" => Ok(Report)
    case "peer-review" => Ok(PeerReview)
    case "book-track" => Ok(BookTrack)
    case "journal-article" => Ok(JournalArticle)
    case "book-part" => Ok(BookPart)
    case "other" => Ok(Other)
    case "book" => Ok(Book)
    case "journal-volume" => Ok(JournalVolume)
    case "book-set" => Ok(BookSet)
    case "reference-entry" => Ok(ReferenceEntry)
    case "proceedings-article" => Ok(ProceedingsArticle)
    case "journal" => Ok(Journal)
    case "component" => Ok(Component)
    case "book-chapter" => Ok(BookChapter)
    case "proceedings-series" => Ok(ProceedingsSeries)
    case "report-series" => Ok(ReportSeries)
    case "proceedings" => Ok(Proceedings)
    case "standard" => Ok(Standard)
    case "reference-book" => Ok(ReferenceBook)
    case "posted-content" => Ok(PostedContent)
    case "journal-issue" => Ok(JournalIssue)
    case "dissertation" => Ok(Dissertation)
    case "dataset" => Ok(Dataset)
    case "book-series" => Ok(BookSeries)
    case "edited-book" => Ok(EditedBook)
    case "standard-series" => Ok(StandardSeries)
    case _ => Err(InvalidTypeName(s))
  }

  /** `FromStr` accepts the ids of `BookSection` to `JournalVolume`. */
  lemma FromStrAcceptsA()
    ensures FromStr("book-section") == Ok(BookSection)
    ensures FromStr("monograph") == Ok(Monograph)
    ensures FromStr("report") == Ok(Report)
    ensures FromStr("peer-review") == Ok(PeerReview)
    ensures FromStr("book-track") == Ok(BookTrack)
    ensures FromStr("journal-article") == Ok(JournalArticle)
    ensures FromStr("book-part") == Ok(BookPart)
    ensures FromStr("other") == Ok(Other)
    ensures FromStr("book") == Ok(Book)
    ensures FromStr("journal-volume") == Ok(JournalVolume)
  {
  }

  /** `FromStr` accepts the ids of `BookSet` to `ProceedingsSeries`. */
  lemma FromStrAcceptsB()
    ensures FromStr("book-set") == Ok(BookSet)
    ensures FromStr("reference-entry") == Ok(ReferenceEntry)
    ensures FromStr("proceedings-article") == Ok(ProceedingsArticle)
    ensures FromStr("journal") == Ok(Journal)
    ensures FromStr("component") == Ok(Component)
    ensures FromStr("book-chapter") == Ok(BookChapter)
    ensures FromStr("proceedings-series") == Ok(ProceedingsSeries)
  {
  }

  /** `FromStr` accepts the ids of `ReportSeries` to `PostedContent`. */
  lemma FromStrAcceptsC()
    ensures FromStr("report-series") == Ok(ReportSeries)
    ensures FromStr("proceedings") == Ok(Proceedings)
    ensures FromStr("standard") == Ok(Standard)
    ensures FromStr("reference-book") == Ok(ReferenceBook)
    ensures FromStr("posted-content") == Ok(PostedContent)
  {
  }

  /** `FromStr` accepts the ids of `JournalIssue` to `BookSeries`. */
  lemma FromStrAcceptsD()
    ensures FromStr("journal-issue") == Ok(JournalIssue)
    ensures FromStr("dissertation") == Ok(Dissertation)
    ensures FromStr("dataset") == Ok(Dataset)
    ensures FromStr("book-series") == Ok(BookSeries)
  {
  }

  /** `FromStr` accepts the ids of `EditedBook` to `StandardSeries`. */
  lemma FromStrAcceptsE()
    ensures FromStr("edited-book") == Ok(EditedBook)
    ensures FromStr("standard-series") == Ok(StandardSeries)
  {
  }

  /** Round trip: every type's id parses back to that type. */
  lemma FromStrOfId(t: Type)
    ensures FromStr(Id(t)) == Ok(t)
  {
    match t
    case BookSection => FromStrAcceptsA();
    case Monograph => FromStrAcceptsA();
    case Report => FromStrAcceptsA();
    case PeerReview => FromStrAcceptsA();
    case BookTrack => FromStrAcceptsA();
    case JournalArticle => FromStrAcceptsA();
    case BookPart => FromStrAcceptsA();
    case Other => FromStrAcceptsA();
    case Book => FromStrAcceptsA();
    case JournalVolume => FromStrAcceptsA();
    case BookSet => FromStrAcceptsB();
    case ReferenceEntry => FromStrAcceptsB();
    case ProceedingsArticle => FromStrAcceptsB();
    case Journal => FromStrAcceptsB();
    case Component => FromStrAcceptsB();
    case BookChapter => FromStrAcceptsB();
    case ProceedingsSeries => FromStrAcceptsB();
    case ReportSeries => FromStrAcceptsC();
    case Proceedings => FromStrAcceptsC();
    case Standard => FromStrAcceptsC();
    case ReferenceBook => FromStrAcceptsC();
    case PostedContent => FromStrAcceptsC();
    case JournalIssue => FromStrAcceptsD();
    case Dissertation => FromStrAcceptsD();
    case Dataset => FromStrAcceptsD();
    case BookSeries => FromStrAcceptsD();
    case EditedBook => FromStrAcceptsE();
    case StandardSeries => FromStrAcceptsE();
  }

  /** Parsing only accepts ids: a string that parses to `t` is `t`'s id. The
      ids are taken in the groups of the `FromStrAccepts` lemmas, which keeps
      each proof small. */
  lemma FromStrSound(s: string, t: Type)
    requires FromStr(s) == Ok(t)
    ensures Id(t) == s
  {
    if s in {"book-section", "monograph", "report", "peer-review", "book-track", "journal-article", "book-part", "other", "book", "journal-volume"} {
      FromStrSoundA(s, t);
    } else if s in {"book-set", "reference-entry", "proceedings-article", "journal", "component", "book-chapter", "proceedings-series"} {
      FromStrSoundB(s, t);
    } else if s in {"report-series", "proceedings", "standard", "reference-book", "posted-content"} {
      FromStrSoundC(s, t);
    } else if s in {"journal-issue", "dissertation", "dataset", "book-series"} {
      FromStrSoundD(s, t);
    } else if s in {"edited-book", "standard-series"} {
      FromStrSoundE(s, t);
    }
  }

  /** `FromStrSound` for the ids that `FromStrAcceptsA` covers. */
  lemma FromStrSoundA(s: string, t: Type)
    requires s in {"book-section", "monograph", "report", "peer-review", "book-track", "journal-article", "book-part", "other", "book", "journal-volume"}
    requires FromStr(s) == Ok(t)
    ensures Id(t) == s
  {
    FromStrAcceptsA();
  }

  /** `FromStrSound` for the ids that `FromStrAcceptsB` covers. */
  lemma FromStrSoundB(s: string, t: Type)
    requires s in {"book-set", "reference-entry", "proceedings-article", "journal", "component", "book-chapter", "proceedings-series"}
    requires FromStr(s) == Ok(t)
    ensures Id(t) == s
  {
    FromStrAcceptsB();
  }

  /** `FromStrSound` for the ids that `FromStrAcceptsC` covers. */
  lemma FromStrSoundC(s: string, t: Type)
    requires s in {"report-series", "proceedings", "standard", "reference-book", "posted-content"}
    requires FromStr(s) == Ok(t)
    ensures Id(t) == s
  {
    FromStrAcceptsC();
  }

  /** `FromStrSound` for the ids that `FromStrAcceptsD` covers. */
  lemma FromStrSoundD(s: string, t: Type)
    requires s in {"journal-issue", "dissertation", "dataset", "book-series"}
    requires FromStr(s) == Ok(t)
    ensures Id(t) == s
  {
    FromStrAcceptsD();
  }

  /** `FromStrSound` for the ids that `FromStrAcceptsE` covers. */
  lemma FromStrSoundE(s: string, t: Type)
    requires s in {"edited-book", "standard-series"}
    requires FromStr(s) == Ok(t)
    ensures Id(t) == s
  {
    FromStrAcceptsE();
  }

  /** Any string that is not an id is rejected with an error naming exactly
      that string, and only such strings are rejected. */
  lemma FromStrRejects(s: string)
    ensures FromStr(s).Err? <==> forall t: Type :: Id(t) != s
    ensures FromStr(s).Err? ==> FromStr(s).error == InvalidTypeName(s)
  {
    if FromStr(s).Ok? {
      FromStrSound(s, FromStr(s).value);
    } else {
      forall t: Type
        ensures Id(t) != s
      {
        FromStrOfId(t);
      }
    }
  }

  /** Distinct types have distinct ids. */
  lemma IdInjective(a: Type, b: Type)
    ensures Id(a) == Id(b) ==> a == b
  {
    FromStrOfId(a);
    FromStrOfId(b);
  }

  /** Reads a label back to its type: the inverse of `Label`. The library has
      no such function; it shows that `Label` loses no information. */
  function FromLabel(l: string): Option<Type> {
    match l
    case "Book Section" => Some(BookSection)
    case "Monograph" => Some(Monograph)
    case "Report" => Some(Report)
    case "Peer Review" => Some(PeerReview)
    case "Book Track" => Some(BookTrack)
    case "Journal Article" => Some(JournalArticle)
    case "Book Part" => Some(BookPart)
    case "Other" => Some(Other)
    case "Book" => Some(Book)
    case "Journal Volume" => Some(JournalVolume)
    case "Book Set" => Some(BookSet)
    case "Reference Entry" => Some(ReferenceEntry)
    case "Proceedings Article" => Some(ProceedingsArticle)
    case "Journal" => Some(Journal)
    case "Component" => Some(Component)
    case "Book Chapter" => Some(BookChapter)
    case "Proceedings Series" => Some(ProceedingsSeries)
    case "Report Series" => Some(ReportSeries)
    case "Proceedings" => Some(Proceedings)
    case "Standard" => Some(Standard)
    case "Reference Book" => Some(ReferenceBook)
    case "Posted Content" => Some(PostedContent)
    case "Journal Issue" => Some(JournalIssue)
    case "Dissertation" => Some(Dissertation)
    case "Dataset" => Some(Dataset)
    case "Book Series" => Some(BookSeries)
    case "Edited Book" => Some(EditedBook)
    case "Standard Series" => Some(StandardSeries)
    case _ => None
  }

  /** `FromLabel` reads the labels of `BookSection` to `JournalVolume`. */
  lemma FromLabelAcceptsA()
    ensures FromLabel("Book Section") == Some(BookSection)
    ensures FromLabel("Monograph") == Some(Monograph)
    ensures FromLabel("Report") == Some(Report)
    ensures FromLabel("Peer Review") == Some(PeerReview)
    ensures FromLabel("Book Track") == Some(BookTrack)
    ensures FromLabel("Journal Article") == Some(JournalArticle)
    ensures FromLabel("Book Part") == Some(BookPart)
    ensures FromLabel("Other") == Some(Other)
    ensures FromLabel("Book") == Some(Book)
    ensures FromLabel("Journal Volume") == Some(JournalVolume)
  {
  }

  /** `FromLabel` reads the labels of `BookSet` to `ProceedingsSeries`. */
  lemma FromLabelAcceptsB()
    ensures FromLabel("Book Set") == Some(BookSet)
    ensures FromLabel("Reference Entry") == Some(ReferenceEntry)
    ensures FromLabel("Proceedings Article") == Some(ProceedingsArticle)
    ensures FromLabel("Journal") == Some(Journal)
    ensures FromLabel("Component") == Some(Component)
    ensures FromLabel("Book Chapter") == Some(BookChapter)
    ensures FromLabel("Proceedings Series") == Some(ProceedingsSeries)
  {
  }

  /** `FromLabel` reads the labels of `ReportSeries` to `PostedContent`. */
  lemma FromLabelAcceptsC()
    ensures FromLabel("Report Series") == Some(ReportSeries)
    ensures FromLabel("Proceedings") == Some(Proceedings)
    ensures FromLabel("Standard") == Some(Standard)
    ensures FromLabel("Reference Book") == Some(ReferenceBook)
    ensures FromLabel("Posted Content") == Some(PostedContent)
  {
  }

  /** `FromLabel` reads the labels of `JournalIssue` to `BookSeries`. */
  lemma FromLabelAcceptsD()
    ensures FromLabel("Journal Issue") == Some(JournalIssue)
    ensures FromLabel("Dissertation") == Some(Dissertation)
    ensures FromLabel("Dataset") == Some(Dataset)
    ensures FromLabel("Book Series") == Some(BookSeries)
  {
  }

  /** `FromLabel` reads the labels of `EditedBook` to `StandardSeries`. */
  lemma FromLabelAcceptsE()
    ensures FromLabel("Edited Book") == Some(EditedBook)
    ensures FromLabel("Standard Series") == Some(StandardSeries)
  {
  }

  /** Every label reads back to its type. */
  lemma FromLabelOfLabel(t: Type)
    ensures FromLabel(Label(t)) == Some(t)
  {
    match t
    case BookSection => FromLabelAcceptsA();
    case Monograph => FromLabelAcceptsA();
    case Report => FromLabelAcceptsA();
    case PeerReview => FromLabelAcceptsA();
    case BookTrack => FromLabelAcceptsA();
    case JournalArticle => FromLabelAcceptsA();
    case BookPart => FromLabelAcceptsA();
    case Other => FromLabelAcceptsA();
    case Book => FromLabelAcceptsA();
    case JournalVolume => FromLabelAcceptsA();
    case BookSet => FromLabelAcceptsB();
    case ReferenceEntry => FromLabelAcceptsB();
    case ProceedingsArticle => FromLabelAcceptsB();
    case Journal => FromLabelAcceptsB();
    case Component => FromLabelAcceptsB();
    case BookChapter => FromLabelAcceptsB();
    case ProceedingsSeries => FromLabelAcceptsB();
    case ReportSeries => FromLabelAcceptsC();
    case Proceedings => FromLabelAcceptsC();
    case Standard => FromLabelAcceptsC();
    case ReferenceBook => FromLabelAcceptsC();
    case PostedContent => FromLabelAcceptsC();
    case JournalIssue => FromLabelAcceptsD();
    case Dissertation => FromLabelAcceptsD();
    case Dataset => FromLabelAcceptsD();
    case BookSeries => FromLabelAcceptsD();
    case EditedBook => FromLabelAcceptsE();
    case StandardSeries => FromLabelAcceptsE();
  }

  /** Distinct types have distinct labels. */
  lemma LabelInjective(a: Type, b: Type)
    ensures Label(a) == Label(b) ==> a == b
  {
    FromLabelOfLabel(a);
    FromLabelOfLabel(b);
  }

  /** The API's type record: an id and a label (`label` is a Dafny keyword, hence `displayLabel`). */
  datatype CrossRefType = CrossRefType(id: string, displayLabel: string)

  /** `Into<CrossRefType> for Type`. */
  function ToCrossRefType(t: Type): CrossRefType {
    CrossRefType(Id(t), Label(t))
  }

  /** The record carries the type's id and label, and its id parses back to
      the type. */
  lemma ToCrossRefTypeRoundTrip(t: Type)
    ensures ToCrossRefType(t).id == Id(t) && ToCrossRefType(t).displayLabel == Label(t)
    ensures FromStr(ToCrossRefType(t).id) == Ok(t)
  {
    FromStrOfId(t);
  }
}

=== FILE: wrappers.dfy ===
/** Failure-compatible wrappers: Rust's `Option` and `Result`, usable with `:-`
    the way the Rust code uses the `?` operator. */
module Wrappers {

  datatype Option<+T> = None | Some(value: T) {

    predicate IsFailure() {
      None?
    }

    function PropagateFailure<U>(): Option<U>
      requires None?
    {
      None
    }

    function Extract(): T
      requires Some?
    {
      value
    }
  }

  datatype Result<+T, +E> = Ok(value: T) | Err(error: E) {

    predicate IsFailure() {
      Err?
    }

    function PropagateFailure<U>(): Result<U, E>
      requires Err?
    {
      Err(error)
    }

    function Extract(): T
      requires Ok?
    {
      value
    }
  }
}
